=== FILE: README.md ===
# Intro-scene animation model

A Dafny model of the animation logic of the site's 3D intro scene. Three
pieces of per-frame stepping are modelled as pure functions over immutable
records of real numbers:

- **The falling dollar bill** (`DollarBill`, with the motion shared with the
  older variant in `Falling`). Each bill is a small state machine. It waits
  out a random spawn delay at height 30, then fades in over 3 seconds while
  it falls under gravity, wind and a clock-driven flutter. It fades out
  between heights -40 and -50. Once it drops below -50 it re-spawns within
  the same frame. The older variant (`LegacyBill`) spawns at 8, re-spawns
  below -8 and never fades.
- **The vertex deformation** (`WindBend`) injected into the bills' vertex
  shader: a wind sway followed by a twist about the vertical axis.
- **The camera path** (`Camera`): a cursor over seven waypoints with 1.8
  seconds per segment. It only moves while the pointer is held, and it eases
  between consecutive waypoints.
- **The intro scene** (`Intro`): the pointer handlers and the progress bar
  width, which grows by 0.4 per interval tick up to 100. It also wires ten
  bills, always active, and the camera, active only while the pointer is
  held.

Outside inputs are parameters:

- Each `Math.random()` result is a real `u` in [0, 1), and `randFloat`,
  `randFloatSpread` and `degToRad` are computed from it as three.js does.
- `sin` and `cos` come from a `Trig` value. `Trig.Valid` states all the model
  assumes of them: range [-1, 1], sin 0 = 0, cos 0 = 1, cos π = −1 (true of
  `Math.cos(Math.PI)`) and sin² + cos² = 1.
- The frame delta and the clock's elapsed time are fields of each frame.

Behaviour of the code worth noting (the model follows it):

- The bills are mounted with `active={true}`. Only the camera follows the
  pointer; the bills do not.
- A frame does not skip the update when delta is 0. The update also runs when
  delta is negative. Invariants that need time to move forward require
  `0 <= delta`.
- The shader's `uTime` is written only on awake frames, not while a bill is
  dormant.
- The camera subtracts one segment time per frame (an `if`, not a loop). A
  frame of 1.8 s or more can therefore leave the progress at or beyond 1.8 s,
  outside its segment. So "progress stays within the segment" and the
  seven-segment periodicity hold only for frames shorter than 1.8 s.
  `Camera.LongFrameOverruns` states exactly when a frame overruns.

## Model

| member | source | states |
|---|---|---|
| `Vectors.Lerp` | src/ThreeIntro/index.js:46 | lerpVectors gives each coordinate as the weighted mean a·(1 − α) + b·α of the endpoints' coordinates. So it is the start point at 0 and the end point at 1, and for α in [0, 1] every coordinate lies between the endpoints' coordinates |
| `Random.RandFloat` | src/ThreeIntro/DollarBill/index.js:89-94 | randFloat(low, high) lies in [low, high) and equals low for a zero draw |
| `Random.RandFloatSpread` | src/ThreeIntro/DollarBill/index.js:75-76 | randFloatSpread(range) lies in (-range/2, range/2] |
| `Random.DegToRad` | src/ThreeIntro/DollarBill/index.js:78-82 | an angle drawn in [0, 360) degrees is in [0, 2π) radians; 180 degrees is π |
| `Falling.Randomize` | src/ThreeIntro/DollarBill/index.js:73-94 | randomizeState puts the bill at the spawn height with x, z in (-10, 10] and every rotation in [0, 2π). It sets vx, vz in (-0.5, 0.5], vy in [0, 0.5), wind x in [-10, 10), wind y 0 and wind z in [-5, 5). It resets the timer to 0, draws a spawn delay in [0, 3) and leaves the uniform alone |
| `Falling.Flutter` | src/ThreeIntro/DollarBill/index.js:127-131 | the flutter offset has no vertical part, and is zero for a frame of length 0 |
| `Falling.FlutterBounded` | src/ThreeIntro/DollarBill/index.js:127-131 | with sine and cosine in [-1, 1], the flutter's x and z are each at most 0.7·\|delta\| in size |
| `Falling.FlutterAmplitude` | src/ThreeIntro/DollarBill/index.js:127-131 | with sin² + cos² = 1, the flutter moves a bill by exactly 0.7·\|delta\| in the xz plane: x² + z² = 0.49·delta² |
| `Falling.Spin` | src/ThreeIntro/DollarBill/index.js:133-135 | one rotation axis grows by delta times a rate in [0.1, 0.3), so it grows by between 0.1·delta and 0.3·delta when delta ≥ 0 |
| `Falling.Advance` | src/ThreeIntro/DollarBill/index.js:122-142 | the vertical velocity gains (gravity + vertical wind)·delta, and the height moves by the new vertical velocity times delta. Each rotation axis grows by between 0.1·delta and 0.3·delta, uTime takes the clock, and wind, timer and spawn delay are unchanged |
| `Falling.AdvanceMovesSideways` | src/ThreeIntro/DollarBill/index.js:125-132 | the horizontal half of the same step: vx' = vx + wind.x·delta and x' = x + vx'·delta + flutter.x, and the same for z |
| `Falling.AdvanceIgnoresTimer` | src/ThreeIntro/DollarBill/index.js:122-135 | the motion step neither reads nor changes the timer |
| `Falling.SinksBelow` | src/ThreeIntro/DollarBill/index.js:123-132 | in still air with delta ≥ 0, a body below a height h that is not rising keeps not rising while below h, and does not gain height |
| `Falling.AdvanceIsFreeFall` | src/ThreeIntro/DollarBill/index.js:123-132 | with no vertical wind, an awake frame moves a bill vertically exactly like a free-fall step (v' = v − 9.8·delta, y' = y + v'·delta), and the vertical wind stays 0 |
| `Falling.AdvanceAllIsFreeFall` | src/ThreeIntro/DollarBill/index.js:123-132 | n awake frames of equal length move a still-air bill vertically like n free-fall steps |
| `Falling.ClosedFormStep` | src/ThreeIntro/DollarBill/index.js:123-132 | one free-fall step carries the closed form for m frames to the closed form for m + 1 |
| `Falling.FallRepeatClosedForm` | src/ThreeIntro/DollarBill/index.js:123-132 | n free-fall steps of length d give v = v0 − 9.8·d·n and y = y0 + n·d·v0 − 4.9·d²·n·(n+1) |
| `Falling.FreeFall` | src/ThreeIntro/DollarBill/index.js:123-132 | a bill falling in still air through equal frames follows that closed form, whatever the clock and the spin draws |
| `DollarBill.FadeIn` | src/ThreeIntro/DollarBill/index.js:113-119 | the fade-in opacity is in [0, 1]. It is 0 when the delay has just run out, equals (timer − delay)/3 inside the 3 s window, and is 1 from the end of the window on |
| `DollarBill.FadeOut` | src/ThreeIntro/DollarBill/index.js:144-152 | below −40 the opacity is in [0, 1). Between −50 and −40 it equals (y + 50)/10, and it is 0 at and below −50 |
| `DollarBill.FadeInNonDecreasing` | src/ThreeIntro/DollarBill/index.js:115 | a later timer never gives a lower fade-in opacity |
| `DollarBill.FadeOutNonDecreasing` | src/ThreeIntro/DollarBill/index.js:148-150 | a lower height never gives a higher fade-out opacity |
| `DollarBill.OpacityOf` | src/ThreeIntro/DollarBill/index.js:113-152 | opacity as a function of age and height is in [0, 1]. It is 0 while dormant and 1 after the fade-in window while above −40. Once awake it is 0 at or below the despawn line |
| `DollarBill.Spawn` | src/ThreeIntro/DollarBill/index.js:73-99 | a re-spawned bill has every field in its drawn range at height 30, and opacity 0 |
| `DollarBill.Mount` | src/ThreeIntro/DollarBill/index.js:101-107 | a freshly mounted bill is randomized at height 30 with opacity 0 and uTime 0 |
| `DollarBill.Step` | src/ThreeIntro/DollarBill/index.js:109-158 | an inactive frame changes nothing. A dormant frame changes only the timer. An awake frame leaves the bill at or above −50, with uTime set to the clock. If the motion went below −50 the bill is re-spawned in the same frame with opacity 0. Otherwise the bill keeps its new motion and its opacity is OpacityOf its age and height. Opacity stays in [0, 1] |
| `DollarBill.MountEstablishesInv` | src/ThreeIntro/DollarBill/index.js:101-107 | a mounted bill satisfies the between-frames invariant |
| `DollarBill.StepPreservesInv` | src/ThreeIntro/DollarBill/index.js:109-158 | a frame with delta ≥ 0 keeps the invariant: spawn delay in [0, 3), timer ≥ 0, no vertical wind, a dormant bill waiting at height 30, a bill below height 30 not rising, height ≥ −50, and opacity equal to OpacityOf age and height |
| `DollarBill.RunPreservesInv` | src/ThreeIntro/DollarBill/index.js:109-158 | the invariant holds after any sequence of frames with non-negative deltas |
| `DollarBill.FadeInNeverDims` | src/ThreeIntro/DollarBill/index.js:113-119 | while a bill stays above the fade-out line, a frame never lowers its opacity |
| `DollarBill.FadeOutNeverBrightens` | src/ThreeIntro/DollarBill/index.js:144-157 | below the fade-out line, no frame with delta ≥ 0 raises a bill's opacity: the bill sinks along the fade-out ramp or re-spawns transparent |
| `DollarBill.AwakeRunIsMotion` | src/ThreeIntro/DollarBill/index.js:109-158 | while a bill is awake and its motion keeps it at or above −50, its frames move it exactly as the motion step alone does; only the timer differs |
| `DollarBill.AwakeBillFallsFreely` | src/ThreeIntro/DollarBill/index.js:109-158 | an awake bill in still air, falling through equal frames without reaching −50, has the closed-form height and vertical velocity of free fall |
| `LegacyBill.Mount` | src/Models/DollarBill/index.js:81-84 | a mounted old-style bill is randomized at height 8 with uTime 0 |
| `LegacyBill.Step` | src/Models/DollarBill/index.js:86-119 | an inactive frame changes nothing. A dormant frame changes only the timer. An awake frame leaves the bill at or above −8 with uTime set to the clock. If the motion stays at or above −8 the result is exactly the moved bill; below −8 it re-spawns at 8 in the same frame. uTime changes only on active awake frames |
| `LegacyBill.RunPreservesInv` | src/Models/DollarBill/index.js:86-119 | after any sequence of frames with delta ≥ 0: spawn delay in [0, 3), timer ≥ 0, no vertical wind, a dormant bill at height 8, and height ≥ −8 |
| `WindBend.Rotate` | src/ThreeIntro/DollarBill/index.js:58-63 | the twist keeps y and turns (x, z) by the given angle: the dot product of old and new (x, z) is cos times the squared radius, and their cross product is sin times it. Given sin² + cos² = 1 it keeps the xz length, and the zero angle leaves the point unchanged |
| `WindBend.RotationKeepsRadius` | src/ThreeIntro/DollarBill/index.js:60-61 | a 2D rotation by (s, c) with s² + c² = 1 keeps x² + z² |
| `WindBend.Deform` | src/ThreeIntro/DollarBill/index.js:53-63 | the deformation never changes a vertex's height. It turns the wind-displaced point about the vertical axis by exactly twistFactor · y · sin(1.5 t), in dot/cross-product form, and keeps that point's xz length |
| `WindBend.SwayDistance` | src/ThreeIntro/DollarBill/index.js:54-55 | the wind sway moves every vertex by exactly windStrength in the xz plane |
| `WindBend.NoTwistAtZeroAngle` | src/ThreeIntro/DollarBill/index.js:57-63 | at shader time 0, or at height 0, the deformation is the sway alone |
| `WindBend.AtDefaultUniforms` | src/ThreeIntro/DollarBill/index.js:41-63 | at windStrength 2.5 and twistFactor 0.5 every vertex sways by exactly 2.5 in the xz plane, and at time 0 a vertex at height 0 is pushed 2.5 along z only |
| `Camera.Next` | src/ThreeIntro/index.js:43 | the next index is in range: i + 1, or 0 after the last waypoint |
| `Camera.Mount` | src/ThreeIntro/index.js:24-31 | the camera starts at index 0 with progress 0, placed on the first waypoint |
| `Camera.Advance` | src/ThreeIntro/index.js:35-39 | the index advances by one, round the loop, exactly when progress + delta ≥ 1.8, and then progress loses 1.8; otherwise only progress grows. Progress in [0, 1.8) with delta in [0, 1.8) stays in [0, 1.8) |
| `Camera.Eased` | src/ThreeIntro/index.js:40-41 | the eased fraction (1 − cos(tπ))/2 is in [0, 1], and 0 when progress is 0 |
| `Camera.Pose` | src/ThreeIntro/index.js:40-47 | each coordinate of the camera is the mean of the current and next waypoints' coordinates, weighted 1 − e and e, where e is the eased fraction. So the camera is on the current waypoint at progress 0, on the next one when e is 1, and always inside the box of the two |
| `Camera.PoseIsContinuousAtWrap` | src/ThreeIntro/index.js:35-47 | the path has no jump at a waypoint: the pose at progress 1.8 on segment i equals the pose at progress 0 on segment i + 1, round the loop |
| `Camera.Frame` | src/ThreeIntro/index.js:33-49 | an inactive frame changes nothing. An active one advances the cursor and places the camera at the cursor's pose, and the index stays in [0, 7) |
| `Camera.AdvanceAll` | src/ThreeIntro/index.js:33-39 | after any number of active frames the index is in [0, 7) |
| `Camera.TimeIsConserved` | src/ThreeIntro/index.js:35-38 | final progress plus 1.8 per boundary crossed equals the starting progress plus all deltas. The index has moved once per boundary, modulo 7 |
| `Camera.ProgressStaysInSegment` | src/ThreeIntro/index.js:35-37 | with every delta in [0, 1.8), progress stays in [0, 1.8) |
| `Camera.LongFrameOverruns` | src/ThreeIntro/index.js:35-39 | from inside a segment, a frame keeps the progress inside it exactly when progress + delta < 3.6; a single 3.6 s frame from the start ends at progress 1.8 on segment 1 |
| `Camera.LoopIsPeriodic` | src/ThreeIntro/index.js:35-38 | after frames summing to 7 × 1.8 s, each shorter than 1.8 s, the cursor is exactly where it started |
| `Camera.LoopClosesAfterSeven` | src/ThreeIntro/index.js:35-38 | a cursor that ends inside a segment, having gained exactly seven segment times, has wrapped seven times and is back at its start |
| `Camera.IdleIsFrozen` | src/ThreeIntro/index.js:34 | any number of inactive frames leave the controller unchanged: frozen, not reset |
| `Intro.RampStep` | src/ThreeIntro/index.js:111-119 | a width tick never shrinks the width. It adds 0.4 below 100 and fixes the width from 100 on, and a width below 100.4 stays below 100.4 |
| `Intro.RampFromZero` | src/ThreeIntro/index.js:93-119 | from 0, the width after n ticks is 0.4·n for n ≤ 250 and exactly 100 afterwards |
| `Intro.RampIsCapped` | src/ThreeIntro/index.js:111-119 | any number of ticks never shrinks the width, and never takes it past 100.4 if it started below |
| `Intro.Mount` | src/ThreeIntro/index.js:24-93 | the scene starts not animating with width 0. The camera is at index 0 with progress 0, placed on the first waypoint. There are ten bills, each randomized into its spawn ranges at height 30 with opacity 0 |
| `Intro.Handle` | src/ThreeIntro/index.js:103-187 | pointer down sets isAnimating and pointer up or leave clear it, nothing else. The width changes only on an interval tick while animating, never shrinks, and takes one ramp step on each such tick. A tick changes nothing but the width. A rendered frame runs the camera frame with active = isAnimating, so the camera moves only while animating. Every bill steps as active on each frame |
| `Intro.BillsIgnorePointer` | src/ThreeIntro/index.js:186-187 | the bills' next state does not depend on whether the pointer is held |
| `Intro.MountEstablishesInv` | src/ThreeIntro/index.js:70-93 | the mounted scene satisfies the scene invariant |
| `Intro.HandlePreservesInv` | src/ThreeIntro/index.js:103-187 | every event keeps the invariant, given non-negative frame deltas: camera index in range, width in [0, 100.4), ten bills each with its own invariant |
| `Intro.Replay` | src/ThreeIntro/index.js:103-187 | after any sequence of events the camera index is in range and the bill count is unchanged |
| `Intro.ReplayPreservesInv` | src/ThreeIntro/index.js:103-187 | the scene invariant holds after any sequence of events with non-negative deltas |
| `Intro.NoPressNoProgress` | src/ThreeIntro/index.js:141-151 | until the pointer goes down, any events leave the camera and the width unchanged and the scene not animating |

## Left out

- Floating point: the model uses real numbers. IEEE doubles would round, for
  example in the 0.4 width steps, so `Intro.RampFromZero` holds exactly only
  over the reals.
- `sin`, `cos`, `Math.random` and the clock are inputs. The model never
  computes them.
- Scene-graph and material plumbing is not modelled:
  - cloning the model and the materials, `transparent`, the shadow flags;
  - collecting the meshes;
  - splicing the shader source in `onBeforeCompile` and `needsUpdate`.
- Re-installing the shader on every re-spawn (`applyWindBendEffect` after
  `randomizeState`) is not modelled. Its effect is a recompile that may reset
  `uTime` to 0. In the model, `uTime` keeps the value last written.
- The `if (!ref.current) return` guards are not modelled: the ref is always
  set after mounting.
- `DollarBills` computes random start positions that it never uses (each bill
  randomizes itself), so they are not modelled.
- `camera.lookAt(0, 0, 0)` is a fixed target, so the position alone is
  modelled as the pose.
- Audio play and pause, the preload of the home page, lighting, the ground
  plane and the static ghost model are not modelled.
- The width interval's 20 ms timing is not modelled. Its ticks are events,
  and they arrive only while animating because the interval is cleared
  otherwise.

=== FILE: arith.dfy ===
/** Small facts about real multiplication that the solver does not find alone. */
module Arith {

  lemma MulNonneg(a: real, b: real)
    requires 0.0 <= a && 0.0 <= b
    ensures 0.0 <= a * b
  {}

  lemma MulPos(a: real, b: real)
    requires 0.0 < a && 0.0 < b
    ensures 0.0 < a * b
  {}

  /** Multiplication distributes over a sum on the left. */
  lemma AddMul(a: real, b: real, c: real)
    ensures (a + b) * c == a * c + b * c
  {}

  /** A fraction u in [0, 1) of a positive d lies in [0, d). The product is
      returned by name so that callers reason about it linearly. */
  lemma Fraction(u: real, d: real) returns (p: real)
    requires 0.0 <= u < 1.0 && 0.0 < d
    ensures p == u * d
    ensures 0.0 <= p < d
  {
    MulNonneg(u, d);
    MulPos(1.0 - u, d);
    p := u * d;
  }
}

=== FILE: camera.dfy ===
/** The intro camera (CameraController in src/ThreeIntro/index.js): while
    active it moves along a closed loop of seven waypoints, spending 1.8
    seconds on each segment and easing in and out of every waypoint. It
    always looks at the origin, so its position is its whole pose. */
module Camera {

  import opened Vectors
  import opened Random
  import opened Trig
  import Arith

  const SegmentTime: real := 1.8

  const Waypoints: seq<Vec3> := [
    Vec3(4.0, 3.0, 3.0),
    Vec3(2.0, -8.0, 5.0),
    Vec3(0.0, -10.0, -5.0),
    Vec3(0.0, 8.0, -5.0),
    Vec3(-2.0, -3.0, 5.0),
    Vec3(0.0, -10.0, -5.0),
    Vec3(-3.4, 7.0, -5.0)
  ]

  /** The progress ref (seconds into the current segment) and the segment
      index ref. */
  datatype Cursor = Cursor(progress: real, index: nat)

  /** The cursor and the camera position it last wrote. */
  datatype Controller = Controller(cursor: Cursor, position: Vec3)

  /** The index of the waypoint after waypoint i, wrapping round the loop. */
  function Next(i: nat): (j: nat)
    ensures j < |Waypoints|
    ensures i < |Waypoints| - 1 ==> j == i + 1
    ensures i == |Waypoints| - 1 ==> j == 0
  {
    (i + 1) % |Waypoints|
  }

  /** The controller as mounted: both refs 0, and the camera placed on the first waypoint. */
  function Mount(): (c: Controller)
    ensures c.cursor.index == 0 && c.cursor.progress == 0.0
    ensures c.position == Waypoints[c.cursor.index]
  {
    Controller(Cursor(0.0, 0), Waypoints[0])
  }

  /** The cursor part of an active frame: progress gains delta and, once it
      reaches the segment time, loses one segment time while the index moves
      to the next waypoint. */
  function Advance(c: Cursor, delta: real): (r: Cursor)
    requires c.index < |Waypoints|
    ensures r.index < |Waypoints|
    ensures c.progress + delta >= SegmentTime ==> r.index == Next(c.index) && r.progress == c.progress + delta - SegmentTime
    ensures c.progress + delta < SegmentTime ==> r.index == c.index && r.progress == c.progress + delta
    ensures 0.0 <= c.progress < SegmentTime && 0.0 <= delta < SegmentTime ==> 0.0 <= r.progress < SegmentTime
  {
    var progress := c.progress + delta;
    if progress >= SegmentTime then Cursor(progress - SegmentTime, Next(c.index))
    else Cursor(progress, c.index)
  }

  /** The ease-in-out curve (1 - cos(t pi)) / 2 at t = progress / segment time. */
  function Eased(progress: real, trig: Trig): (e: real)
    ensures Valid(trig) ==> 0.0 <= e <= 1.0
    ensures Valid(trig) && progress == 0.0 ==> e == 0.0
  {
    var t := progress / SegmentTime;
    (1.0 - trig.cos(t * Pi)) / 2.0
  }

  /** Where the camera stands for a cursor: between the current waypoint and
      the next one, at the eased fraction of the segment. */
  function Pose(c: Cursor, trig: Trig): (p: Vec3)
    requires c.index < |Waypoints|
    ensures var a, b, e := Waypoints[c.index], Waypoints[Next(c.index)], Eased(c.progress, trig);
            && p.x == a.x * (1.0 - e) + b.x * e
            && p.y == a.y * (1.0 - e) + b.y * e
            && p.z == a.z * (1.0 - e) + b.z * e
    ensures Valid(trig) && c.progress == 0.0 ==> p == Waypoints[c.index]
    ensures Eased(c.progress, trig) == 1.0 ==> p == Waypoints[Next(c.index)]
    ensures Valid(trig) ==>
              var a, b := Waypoints[c.index], Waypoints[Next(c.index)];
              Between(p.x, a.x, b.x) && Between(p.y, a.y, b.y) && Between(p.z, a.z, b.z)
  {
    Lerp(Waypoints[c.index], Waypoints[Next(c.index)], Eased(c.progress, trig))
  }

  /** The path has no jump at a waypoint: the pose at the very end of a
      segment is the pose at the very start of the next one. */
  lemma PoseIsContinuousAtWrap(i: nat, trig: Trig)
    requires i < |Waypoints| && Valid(trig)
    ensures Pose(Cursor(SegmentTime, i), trig) == Pose(Cursor(0.0, Next(i)), trig)
  {
    assert SegmentTime / SegmentTime * Pi == Pi;
  }

  /** One useFrame call: nothing at all while inactive; otherwise the cursor
      advances and the camera moves to the cursor's pose. */
  function Frame(c: Controller, active: bool, delta: real, trig: Trig): (r: Controller)
    requires c.cursor.index < |Waypoints|
    ensures r.cursor.index < |Waypoints|
    ensures !active ==> r == c
    ensures active ==> r.cursor == Advance(c.cursor, delta) && r.position == Pose(r.cursor, trig)
  {
    if !active then c
    else
      var cursor := Advance(c.cursor, delta);
      Controller(cursor, Pose(cursor, trig))
  }

  /** Frames of the given deltas, all active, the last applied last. */
  function AdvanceAll(c: Cursor, deltas: seq<real>): (r: Cursor)
    requires c.index < |Waypoints|
    ensures r.index < |Waypoints|
  {
    if |deltas| == 0 then c
    else Advance(AdvanceAll(c, deltas[..|deltas| - 1]), deltas[|deltas| - 1])
  }

  /** The number of segment boundaries crossed while advancing through the deltas. */
  function Wraps(c: Cursor, deltas: seq<real>): nat
    requires c.index < |Waypoints|
  {
    if |deltas| == 0 then 0
    else
      var p := AdvanceAll(c, deltas[..|deltas| - 1]);
      Wraps(c, deltas[..|deltas| - 1]) + (if p.progress + deltas[|deltas| - 1] >= SegmentTime then 1 else 0)
  }

  function Sum(deltas: seq<real>): real {
    if |deltas| == 0 then 0.0 else Sum(deltas[..|deltas| - 1]) + deltas[|deltas| - 1]
  }

  /** Moving one more step round the loop of seven. */
  lemma ModSucc(a: nat)
    ensures (a + 1) % 7 == (a % 7 + 1) % 7
  {
    var q, r := a / 7, a % 7;
    assert a == 7 * q + r;
    if r < 6 {
      assert a + 1 == 7 * q + (r + 1);
    } else {
      assert a + 1 == 7 * (q + 1);
    }
  }

  /** No time is lost: the progress plus one segment time per boundary
      crossed equals the starting progress plus all the deltas, and the
      index has moved forward once per boundary, round the loop. */
  lemma {:induction false} TimeIsConserved(c: Cursor, deltas: seq<real>)
    requires c.index < |Waypoints|
    ensures AdvanceAll(c, deltas).progress + SegmentTime * (Wraps(c, deltas) as real) == c.progress + Sum(deltas)
    ensures AdvanceAll(c, deltas).index == (c.index + Wraps(c, deltas)) % |Waypoints|
  {
    if |deltas| > 0 {
      var prefix := deltas[..|deltas| - 1];
      TimeIsConserved(c, prefix);
      var p := AdvanceAll(c, prefix);
      var k := Wraps(c, prefix);
      if p.progress + deltas[|deltas| - 1] >= SegmentTime {
        Arith.AddMul(k as real, 1.0, SegmentTime);
        assert (k + 1) as real == k as real + 1.0;
        ModSucc(c.index + k);
      }
    }
  }

  /** Short frames keep the progress inside one segment. */
  lemma {:induction false} ProgressStaysInSegment(c: Cursor, deltas: seq<real>)
    requires c.index < |Waypoints| && 0.0 <= c.progress < SegmentTime
    requires forall i :: 0 <= i < |deltas| ==> 0.0 <= deltas[i] < SegmentTime
    ensures 0.0 <= AdvanceAll(c, deltas).progress < SegmentTime
  {
    if |deltas| > 0 {
      ProgressStaysInSegment(c, deltas[..|deltas| - 1]);
    }
  }

  /** A frame subtracts at most one segment time, so a long frame leaves the
      progress outside its segment: from inside a segment it stays inside
      exactly when progress + delta < 2 * 1.8. A single 3.6-second frame
      from the start ends 1.8 seconds into the second segment. */
  lemma LongFrameOverruns(c: Cursor, delta: real)
    requires c.index < |Waypoints| && 0.0 <= c.progress < SegmentTime && 0.0 <= delta
    ensures Advance(c, delta).progress < SegmentTime <==> c.progress + delta < 2.0 * SegmentTime
    ensures Advance(Cursor(0.0, 0), 3.6) == Cursor(1.8, 1)
  {
  }

  /** The loop is periodic: after exactly seven segment times of short
      frames, in any split, the cursor is back where it started. */
  lemma LoopIsPeriodic(c: Cursor, deltas: seq<real>)
    requires c.index < |Waypoints| && 0.0 <= c.progress < SegmentTime
    requires forall i :: 0 <= i < |deltas| ==> 0.0 <= deltas[i] < SegmentTime
    requires Sum(deltas) == SegmentTime * (|Waypoints| as real)
    ensures AdvanceAll(c, deltas) == c
  {
    TimeIsConserved(c, deltas);
    ProgressStaysInSegment(c, deltas);
    LoopClosesAfterSeven(c, AdvanceAll(c, deltas), Wraps(c, deltas));
  }

  /** The last step of the period argument: a cursor that ends inside a
      segment, with exactly seven segment times gained over k wraps, has
      wrapped seven times and is back where it started. */
  lemma LoopClosesAfterSeven(c: Cursor, r: Cursor, k: nat)
    requires c.index < |Waypoints| && 0.0 <= c.progress < SegmentTime
    requires 0.0 <= r.progress < SegmentTime
    requires r.progress + SegmentTime * (k as real) == c.progress + SegmentTime * 7.0
    requires r.index == (c.index + k) % 7
    ensures r == c
  {
    assert 6.0 < k as real < 8.0;
  }

  /** Inactive frames, however many, leave the controller exactly as it was. */
  function Idle(c: Controller, deltas: seq<real>, trig: Trig): Controller
    requires c.cursor.index < |Waypoints|
  {
    if |deltas| == 0 then c else Frame(Idle(c, deltas[..|deltas| - 1], trig), false, deltas[|deltas| - 1], trig)
  }

  lemma {:induction false} IdleIsFrozen(c: Controller, deltas: seq<real>, trig: Trig)
    requires c.cursor.index < |Waypoints|
    ensures Idle(c, deltas, trig) == c
  {
    if |deltas| > 0 {
      IdleIsFrozen(c, deltas[..|deltas| - 1], trig);
    }
  }
}

=== FILE: dollar_bill.dfy ===
/** The falling dollar bill of the intro scene (src/ThreeIntro/DollarBill):
    one bill's per-frame state machine. A bill waits out its spawn delay at
    the spawn height, fades in over three seconds while it falls, fades out
    between heights -40 and -50, and re-spawns in the same frame once it
    drops below -50. Its opacity is the opacity of every mesh of the bill
    (the source writes the same value to all of them). */
module DollarBill {

  import opened Vectors
  import opened Trig
  import opened Falling

  const SpawnY: real := 30.0
  const FadeInDuration: real := 3.0
  const FadeOutStart: real := -40.0
  const DespawnY: real := -50.0

  datatype Bill = Bill(body: Body, opacity: real)

  function Min(a: real, b: real): real {
    if a < b then a else b
  }

  function Max(a: real, b: real): real {
    if a < b then b else a
  }

  /** The fade-in opacity of an awake bill: the fraction of the three-second
      window elapsed since the spawn delay ran out, capped at 1. */
  function FadeIn(timer: real, spawnDelay: real): (r: real)
    requires spawnDelay <= timer
    ensures 0.0 <= r <= 1.0
    ensures timer == spawnDelay ==> r == 0.0
    ensures timer < spawnDelay + FadeInDuration ==> r < 1.0 && 3.0 * r == timer - spawnDelay
    ensures spawnDelay + FadeInDuration <= timer ==> r == 1.0
  {
    Min((timer - spawnDelay) / FadeInDuration, 1.0)
  }

  /** The fade-out opacity below the fade-out line: 1 at height -40, falling
      linearly over the ten units to the despawn line, never below 0. */
  function FadeOut(y: real): (r: real)
    requires y < FadeOutStart
    ensures 0.0 <= r < 1.0
    ensures DespawnY <= y ==> 10.0 * r == y - DespawnY
    ensures y <= DespawnY ==> r == 0.0
  {
    Max(0.0, 1.0 - (FadeOutStart - y) / 10.0)
  }

  lemma FadeInNonDecreasing(t1: real, t2: real, spawnDelay: real)
    requires spawnDelay <= t1 <= t2
    ensures FadeIn(t1, spawnDelay) <= FadeIn(t2, spawnDelay)
  {}

  lemma FadeOutNonDecreasing(y1: real, y2: real)
    requires y1 <= y2 < FadeOutStart
    ensures FadeOut(y1) <= FadeOut(y2)
  {}

  /** A bill is dormant while its timer has not reached its spawn delay. */
  predicate Dormant(b: Body) {
    b.timer < b.spawnDelay
  }

  /** The opacity a bill shows as a function of its age and height alone:
      0 while dormant, the fade-out value below the fade-out line, and the
      fade-in value otherwise. */
  function OpacityOf(b: Body): (r: real)
    ensures 0.0 <= r <= 1.0
    ensures Dormant(b) ==> r == 0.0
    ensures !Dormant(b) && FadeOutStart <= b.position.y && b.spawnDelay + FadeInDuration <= b.timer ==> r == 1.0
    ensures !Dormant(b) && b.position.y <= DespawnY ==> r == 0.0
  {
    if Dormant(b) then 0.0
    else if b.position.y < FadeOutStart then FadeOut(b.position.y)
    else FadeIn(b.timer, b.spawnDelay)
  }

  /** randomizeState: a fresh random body at the spawn height, fully transparent. */
  function Spawn(b: Body, d: SpawnDraws): (r: Bill)
    requires d.Valid()
    ensures SpawnRanges(r.body, SpawnY)
    ensures r.opacity == 0.0
    ensures r.body.uTime == b.uTime
  {
    Bill(Randomize(b, SpawnY, d), 0.0)
  }

  /** The bill as first mounted: the refs' initial values (zero vectors, timer
      and uniform 0) overwritten by one call of randomizeState. */
  function Mount(d: SpawnDraws): (r: Bill)
    requires d.Valid()
    ensures SpawnRanges(r.body, SpawnY) && r.opacity == 0.0 && r.body.uTime == 0.0
  {
    var zero := Vec3(0.0, 0.0, 0.0);
    Spawn(Body(zero, zero, zero, zero, 0.0, 0.0, 0.0), d)
  }

  /** The body after the motion of an awake frame, before the fade-out and
      despawn checks: the timer has advanced and the physics has run. */
  function Moved(bill: Bill, f: Frame, trig: Trig): Body
    requires f.spin.Valid()
  {
    Advance(bill.body.(timer := bill.body.timer + f.delta), f, trig)
  }

  /** One useFrame call. An inactive frame changes nothing. Otherwise the
      timer advances by delta; a bill still inside its spawn delay changes in
      nothing else. An awake bill takes the fade-in opacity, moves, takes the
      fade-out opacity if it is below the fade-out line, and re-spawns at
      once if it is below the despawn line. */
  function Step(bill: Bill, active: bool, f: Frame, trig: Trig): (r: Bill)
    requires f.Valid()
    ensures !active ==> r == bill
    ensures active && bill.body.timer + f.delta < bill.body.spawnDelay ==>
              r == bill.(body := bill.body.(timer := bill.body.timer + f.delta))
    ensures active && bill.body.spawnDelay <= bill.body.timer + f.delta ==>
              && DespawnY <= r.body.position.y
              && r.body.uTime == f.clock
    ensures active && bill.body.spawnDelay <= bill.body.timer + f.delta && Moved(bill, f, trig).position.y < DespawnY ==>
              SpawnRanges(r.body, SpawnY) && r.opacity == 0.0
    ensures active && bill.body.spawnDelay <= bill.body.timer + f.delta && DespawnY <= Moved(bill, f, trig).position.y ==>
              r.body == Moved(bill, f, trig) && r.opacity == OpacityOf(r.body)
    ensures 0.0 <= bill.opacity <= 1.0 ==> 0.0 <= r.opacity <= 1.0
  {
    if !active then bill
    else
      var timer := bill.body.timer + f.delta;
      if timer < bill.body.spawnDelay then bill.(body := bill.body.(timer := timer))
      else
        var fadedIn := FadeIn(timer, bill.body.spawnDelay);
        var moved := Moved(bill, f, trig);
        var y := moved.position.y;
        var opacity := if y < FadeOutStart then FadeOut(y) else fadedIn;
        if y < DespawnY then Spawn(moved, f.respawn) else Bill(moved, opacity)
  }

  /** What holds of a bill between frames when the clock never runs
      backwards: the spawn delay lies in [0, 3), the timer is non-negative,
      the wind has no vertical part, a dormant bill waits at the spawn
      height, a bill below the spawn height is not rising, the bill is never
      below the despawn line, and its opacity is the function OpacityOf of
      its age and height. */
  ghost predicate Inv(bill: Bill) {
    var b := bill.body;
    && 0.0 <= b.spawnDelay < MaxSpawnDelay
    && 0.0 <= b.timer
    && b.wind.y == 0.0
    && (Dormant(b) ==> b.position.y == SpawnY)
    && (b.position.y < SpawnY ==> b.velocity.y <= 0.0)
    && DespawnY <= b.position.y
    && bill.opacity == OpacityOf(b)
  }

  lemma MountEstablishesInv(d: SpawnDraws)
    requires d.Valid()
    ensures Inv(Mount(d))
  {}

  lemma StepPreservesInv(bill: Bill, active: bool, f: Frame, trig: Trig)
    requires Inv(bill) && f.Valid() && 0.0 <= f.delta
    ensures Inv(Step(bill, active, f, trig))
  {
    if active && !Dormant(bill.body.(timer := bill.body.timer + f.delta)) {
      SinksBelow(SpawnY, bill.body.(timer := bill.body.timer + f.delta), f, trig);
    }
  }

  /** A sequence of frames, the last one applied last. */
  function Run(bill: Bill, active: bool, frames: seq<Frame>, trig: Trig): Bill
    requires forall i :: 0 <= i < |frames| ==> frames[i].Valid()
  {
    if |frames| == 0 then bill
    else Step(Run(bill, active, frames[..|frames| - 1], trig), active, frames[|frames| - 1], trig)
  }

  lemma {:induction false} RunPreservesInv(bill: Bill, active: bool, frames: seq<Frame>, trig: Trig)
    requires Inv(bill)
    requires forall i :: 0 <= i < |frames| ==> frames[i].Valid() && 0.0 <= frames[i].delta
    ensures Inv(Run(bill, active, frames, trig))
  {
    if |frames| > 0 {
      RunPreservesInv(bill, active, frames[..|frames| - 1], trig);
      StepPreservesInv(Run(bill, active, frames[..|frames| - 1], trig), active, frames[|frames| - 1], trig);
    }
  }

  /** While the bill stays above the fade-out line, a frame never dims it:
      it only needs to show the opacity of its age and height, as every
      bill between frames does. */
  lemma FadeInNeverDims(bill: Bill, f: Frame, trig: Trig)
    requires bill.opacity == OpacityOf(bill.body) && f.Valid() && 0.0 <= f.delta
    requires bill.body.spawnDelay <= bill.body.timer + f.delta
    requires FadeOutStart <= bill.body.position.y
    ensures FadeOutStart <= Moved(bill, f, trig).position.y ==> bill.opacity <= Step(bill, true, f, trig).opacity
  {
    if !Dormant(bill.body) {
      FadeInNonDecreasing(bill.body.timer, bill.body.timer + f.delta, bill.body.spawnDelay);
    }
  }

  /** Below the fade-out line a bill never brightens: it is not rising
      there, so a frame either lowers it along the fade-out ramp or
      re-spawns it transparent. */
  lemma FadeOutNeverBrightens(bill: Bill, active: bool, f: Frame, trig: Trig)
    requires Inv(bill) && f.Valid() && 0.0 <= f.delta
    requires bill.body.position.y < FadeOutStart
    ensures Step(bill, active, f, trig).opacity <= bill.opacity
  {
    if active {
      var moved := Moved(bill, f, trig);
      SinksBelow(SpawnY, bill.body.(timer := bill.body.timer + f.delta), f, trig);
      if DespawnY <= moved.position.y {
        FadeOutNonDecreasing(moved.position.y, bill.body.position.y);
      }
    }
  }

  /** While a bill is awake and its motion never takes it below the despawn
      line, its frames are pure motion: the bill moves exactly as the
      physics alone moves it, and only its timer differs. */
  lemma {:induction false} AwakeRunIsMotion(bill: Bill, frames: seq<Frame>, trig: Trig)
    requires forall i :: 0 <= i < |frames| ==> frames[i].Valid() && 0.0 <= frames[i].delta
    requires !Dormant(bill.body)
    // implied by frames[i].Valid(), but the solver does not unfold it here
    requires forall i :: 0 <= i < |frames| ==> frames[i].spin.Valid()
    requires StaysAbove(DespawnY, bill.body, frames, trig)
    ensures Run(bill, true, frames, trig).body.(timer := bill.body.timer) == AdvanceAll(bill.body, frames, trig)
    ensures !Dormant(Run(bill, true, frames, trig).body)
  {
    if |frames| > 0 {
      var n := |frames|;
      var prefix := frames[..n - 1];
      AwakeRunIsMotion(bill, prefix, trig);
      var before := Run(bill, true, prefix, trig);
      var f := frames[n - 1];
      AdvanceIgnoresTimer(before.body.(timer := bill.body.timer), before.body.timer + f.delta, f, trig);
      assert Moved(before, f, trig).(timer := bill.body.timer) == AdvanceAll(bill.body, frames, trig);
    }
  }

  /** Scenario: a bill awake in still air, falling through frames of equal
      length d without reaching the despawn line, follows the closed form of
      free fall. */
  lemma AwakeBillFallsFreely(bill: Bill, frames: seq<Frame>, trig: Trig, d: real)
    requires forall i :: 0 <= i < |frames| ==> frames[i].Valid() && frames[i].delta == d
    // implied by frames[i].Valid(), but the solver does not unfold it here
    requires forall i :: 0 <= i < |frames| ==> frames[i].spin.Valid()
    requires 0.0 <= d && bill.body.wind.y == 0.0 && !Dormant(bill.body)
    requires StaysAbove(DespawnY, bill.body, frames, trig)
    ensures VerticalOf(Run(bill, true, frames, trig).body) == FallClosedForm(VerticalOf(bill.body), d, |frames|)
  {
    AwakeRunIsMotion(bill, frames, trig);
    FreeFall(bill.body, frames, trig, d);
  }
}

=== FILE: falling.dfy ===
/** The state and per-frame motion shared by both dollar-bill components: the
    random re-spawn (`randomizeState`) and the falling motion of an awake bill
    (gravity, wind, flutter and rotation jitter). The two components differ
    only in their spawn height, despawn line and fading; those live in
    DollarBill and LegacyBill. */
module Falling {

  import opened Vectors
  import opened Random
  import opened Trig
  import Arith

  /** Downward acceleration, units per second squared. */
  const Gravity: real := -9.8
  const FlutterFrequency: real := 2.0
  /** Spawn delays are drawn from [0, MaxSpawnDelay). */
  const MaxSpawnDelay: real := 3.0

  /** One bill's mutable state: the object's transform, the velocity and wind
      refs, the timer and spawn-delay refs, and the uTime shader uniform. */
  datatype Body = Body(
    position: Vec3,
    rotation: Vec3,
    velocity: Vec3,
    wind: Vec3,
    timer: real,
    spawnDelay: real,
    uTime: real)

  /** The eleven Math.random() results one call of randomizeState consumes,
      in the order it consumes them. */
  datatype SpawnDraws = SpawnDraws(
    x: real, z: real,
    rotX: real, rotY: real, rotZ: real,
    velX: real, velY: real, velZ: real,
    windX: real, windZ: real,
    delay: real)
  {
    predicate Valid() {
      && IsUnit(x) && IsUnit(z)
      && IsUnit(rotX) && IsUnit(rotY) && IsUnit(rotZ)
      && IsUnit(velX) && IsUnit(velY) && IsUnit(velZ)
      && IsUnit(windX) && IsUnit(windZ)
      && IsUnit(delay)
    }
  }

  /** The three Math.random() results of one frame's rotation jitter. */
  datatype SpinDraws = SpinDraws(x: real, y: real, z: real) {
    predicate Valid() {
      IsUnit(x) && IsUnit(y) && IsUnit(z)
    }
  }

  /** Everything one useFrame call reads from outside the bill: the frame's
      delta, the global clock's elapsed time, and the random draws of the
      rotation jitter and of a possible respawn. */
  datatype Frame = Frame(delta: real, clock: real, spin: SpinDraws, respawn: SpawnDraws) {
    predicate Valid() {
      spin.Valid() && respawn.Valid()
    }
  }

  /** The ranges randomizeState draws every field from. */
  predicate SpawnRanges(b: Body, spawnY: real) {
    && b.position.y == spawnY
    && -10.0 < b.position.x <= 10.0 && -10.0 < b.position.z <= 10.0
    && 0.0 <= b.rotation.x < 2.0 * Pi
    && 0.0 <= b.rotation.y < 2.0 * Pi
    && 0.0 <= b.rotation.z < 2.0 * Pi
    && -0.5 < b.velocity.x <= 0.5 && 0.0 <= b.velocity.y < 0.5 && -0.5 < b.velocity.z <= 0.5
    && -10.0 <= b.wind.x < 10.0 && b.wind.y == 0.0 && -5.0 <= b.wind.z < 5.0
    && b.timer == 0.0
    && 0.0 <= b.spawnDelay < MaxSpawnDelay
  }

  /** randomizeState: a fresh position at height spawnY, random orientation,
      small initial velocity, a new wind and spawn delay, and the timer reset.
      The shader uniform is not one of its fields. */
  function Randomize(b: Body, spawnY: real, d: SpawnDraws): (r: Body)
    requires d.Valid()
    ensures SpawnRanges(r, spawnY)
    ensures r.uTime == b.uTime
  {
    Body(
      position := Vec3(RandFloatSpread(20.0, d.x), spawnY, RandFloatSpread(20.0, d.z)),
      rotation := Vec3(DegToRad(RandFloat(0.0, 360.0, d.rotX)),
                       DegToRad(RandFloat(0.0, 360.0, d.rotY)),
                       DegToRad(RandFloat(0.0, 360.0, d.rotZ))),
      velocity := Vec3(RandFloatSpread(1.0, d.velX), RandFloat(0.0, 0.5, d.velY), RandFloatSpread(1.0, d.velZ)),
      wind := Vec3(RandFloat(-10.0, 10.0, d.windX), 0.0, RandFloat(-5.0, 5.0, d.windZ)),
      timer := 0.0,
      spawnDelay := RandFloat(0.0, MaxSpawnDelay, d.delay),
      uTime := b.uTime)
  }

  /** The flutter offset of one frame: amplitude times (sin, 0, cos) of the
      global clock times the frequency, scaled by delta. It never moves the
      bill vertically, and a frame of length 0 does not move it at all. */
  function Flutter(trig: Trig, clock: real, delta: real): (r: Vec3)
    ensures r.y == 0.0
    ensures delta == 0.0 ==> r == Vec3(0.0, 0.0, 0.0)
  {
    var s := trig.sin(clock * FlutterFrequency);
    var c := trig.cos(clock * FlutterFrequency);
    Scale(Vec3(0.7 * s, 0.0, 0.7 * c), delta)
  }

  /** Since sine and cosine stay in [-1, 1], the flutter drifts a bill
      sideways by at most the amplitude 0.7 per second on each axis. */
  lemma FlutterBounded(trig: Trig, clock: real, delta: real)
    requires Valid(trig)
    ensures Abs(Flutter(trig, clock, delta).x) <= 0.7 * Abs(delta)
    ensures Abs(Flutter(trig, clock, delta).z) <= 0.7 * Abs(delta)
  {
    UnitTimesDelta(trig.sin(clock * FlutterFrequency), delta);
    UnitTimesDelta(trig.cos(clock * FlutterFrequency), delta);
  }

  /** The flutter's horizontal amplitude is exact: it moves a bill by
      0.7 |delta| in the xz plane, in the direction the clock selects. */
  lemma FlutterAmplitude(trig: Trig, clock: real, delta: real)
    requires Valid(trig)
    ensures var fl := Flutter(trig, clock, delta);
            fl.x * fl.x + fl.z * fl.z == 0.49 * (delta * delta)
  {
    var s, c := trig.sin(clock * FlutterFrequency), trig.cos(clock * FlutterFrequency);
    assert s * s + c * c == 1.0;
    assert (0.7 * s * delta) * (0.7 * s * delta) + (0.7 * c * delta) * (0.7 * c * delta)
        == 0.49 * (delta * delta) * (s * s + c * c);
  }

  function Abs(a: real): real {
    if a < 0.0 then -a else a
  }

  lemma UnitTimesDelta(s: real, delta: real)
    ensures -1.0 <= s <= 1.0 ==>
              -0.7 * Abs(delta) <= 0.7 * s * delta <= 0.7 * Abs(delta)
  {
    if s < -1.0 || 1.0 < s { return; }
    var d := Abs(delta);
    Arith.MulNonneg(1.0 - s, d);
    Arith.MulNonneg(1.0 + s, d);
    if delta < 0.0 {
      assert 0.7 * s * delta == -(0.7 * (s * d));
    } else {
      assert 0.7 * s * delta == 0.7 * (s * d);
    }
  }

  /** One axis of the rotation jitter: the angle grows by delta times a rate in [0.1, 0.3). */
  function Spin(angle: real, delta: real, u: real): (r: real)
    requires IsUnit(u)
    ensures 0.0 <= delta ==> angle + 0.1 * delta <= r <= angle + 0.3 * delta
  {
    var rate := RandFloat(0.1, 0.3, u);
    SpinBounds(delta, rate);
    angle + delta * rate
  }

  lemma SpinBounds(delta: real, rate: real)
    requires 0.1 <= rate < 0.3
    ensures 0.0 <= delta ==> 0.1 * delta <= delta * rate <= 0.3 * delta
  {
    if 0.0 <= delta {
      Arith.MulNonneg(delta, rate - 0.1);
      Arith.MulNonneg(delta, 0.3 - rate);
    }
  }

  /** The velocity after one frame: gravity and the wind, each scaled by delta, are added. */
  function Accelerate(velocity: Vec3, wind: Vec3, delta: real): (v: Vec3)
    ensures v.x == velocity.x + wind.x * delta
    ensures v.y == velocity.y + (Gravity + wind.y) * delta
    ensures v.z == velocity.z + wind.z * delta
  {
    Add(Add(velocity, Scale(Vec3(0.0, Gravity, 0.0), delta)), Scale(wind, delta))
  }

  /** The position after one frame: the new velocity scaled by delta, then the flutter, are added. */
  function Translate(p: Vec3, v: Vec3, flutter: Vec3, delta: real): (r: Vec3)
    ensures r.x == p.x + v.x * delta + flutter.x
    ensures r.y == p.y + v.y * delta + flutter.y
    ensures r.z == p.z + v.z * delta + flutter.z
  {
    Add(Add(p, Scale(v, delta)), flutter)
  }

  /** The rotation after one frame: each axis spins by its own rate draw. */
  function SpinAll(rotation: Vec3, delta: real, d: SpinDraws): (r: Vec3)
    requires d.Valid()
    ensures 0.0 <= delta ==>
              && rotation.x + 0.1 * delta <= r.x <= rotation.x + 0.3 * delta
              && rotation.y + 0.1 * delta <= r.y <= rotation.y + 0.3 * delta
              && rotation.z + 0.1 * delta <= r.z <= rotation.z + 0.3 * delta
  {
    Vec3(Spin(rotation.x, delta, d.x), Spin(rotation.y, delta, d.y), Spin(rotation.z, delta, d.z))
  }

  /** The motion of an awake bill in one frame: gravity and wind accelerate
      the velocity, the position moves by the new velocity plus the flutter,
      every rotation axis spins forward, and the shader's uTime takes the
      global clock. Flutter and wind have no vertical part, so the height
      changes by the new vertical velocity alone. The horizontal motion is
      stated by AdvanceMovesSideways. */
  function Advance(b: Body, f: Frame, trig: Trig): (r: Body)
    requires f.spin.Valid()
    ensures r.velocity.y == b.velocity.y + (Gravity + b.wind.y) * f.delta
    ensures r.position.y == b.position.y + r.velocity.y * f.delta
    ensures 0.0 <= f.delta ==>
              && b.rotation.x + 0.1 * f.delta <= r.rotation.x <= b.rotation.x + 0.3 * f.delta
              && b.rotation.y + 0.1 * f.delta <= r.rotation.y <= b.rotation.y + 0.3 * f.delta
              && b.rotation.z + 0.1 * f.delta <= r.rotation.z <= b.rotation.z + 0.3 * f.delta
    ensures r.uTime == f.clock
    ensures r.wind == b.wind && r.timer == b.timer && r.spawnDelay == b.spawnDelay
  {
    var velocity := Accelerate(b.velocity, b.wind, f.delta);
    var position := Translate(b.position, velocity, Flutter(trig, f.clock, f.delta), f.delta);
    b.(position := position, rotation := SpinAll(b.rotation, f.delta, f.spin),
       velocity := velocity, uTime := f.clock)
  }

  /** The horizontal half of the motion step: the wind accelerates the
      bill sideways, and the bill moves sideways by its new velocity plus
      the flutter offset. */
  lemma AdvanceMovesSideways(b: Body, f: Frame, trig: Trig)
    requires f.spin.Valid()
    ensures var r := Advance(b, f, trig);
            && r.velocity.x == b.velocity.x + b.wind.x * f.delta
            && r.velocity.z == b.velocity.z + b.wind.z * f.delta
            && r.position.x == b.position.x + r.velocity.x * f.delta + Flutter(trig, f.clock, f.delta).x
            && r.position.z == b.position.z + r.velocity.z * f.delta + Flutter(trig, f.clock, f.delta).z
  {
  }

  /** In still air and forward time, a body below some height h that is not
      rising keeps not rising while it stays below h, and does not gain
      height. A rising body stays at or above h until it stops rising,
      because gravity only slows it. */
  lemma SinksBelow(h: real, b: Body, f: Frame, trig: Trig)
    requires f.spin.Valid() && b.wind.y == 0.0 && 0.0 <= f.delta
    requires b.position.y < h ==> b.velocity.y <= 0.0
    ensures var r := Advance(b, f, trig);
            && (r.position.y < h ==> r.velocity.y <= 0.0)
            && (b.position.y < h ==> r.position.y <= b.position.y)
  {
    var r := Advance(b, f, trig);
    var v := r.velocity.y;
    assert v == b.velocity.y - 9.8 * f.delta;
    if 0.0 < v {
      Arith.MulNonneg(v, f.delta);
    } else {
      Arith.MulNonneg(-v, f.delta);
    }
  }

  /** The motion never reads the timer and writes it back unchanged. */
  lemma AdvanceIgnoresTimer(b: Body, t: real, f: Frame, trig: Trig)
    requires f.spin.Valid()
    ensures Advance(b.(timer := t), f, trig) == Advance(b, f, trig).(timer := t)
  {
  }

  /** Awake motion over a sequence of frames, with no despawn check. */
  function AdvanceAll(b: Body, frames: seq<Frame>, trig: Trig): Body
    requires forall i :: 0 <= i < |frames| ==> frames[i].spin.Valid()
  {
    if |frames| == 0 then b
    else Advance(AdvanceAll(b, frames[..|frames| - 1], trig), frames[|frames| - 1], trig)
  }

  /** The motion through every prefix of the frames keeps the body at or above height h. */
  predicate StaysAbove(h: real, b: Body, frames: seq<Frame>, trig: Trig)
    requires forall i :: 0 <= i < |frames| ==> frames[i].spin.Valid()
  {
    |frames| == 0 || (StaysAbove(h, b, frames[..|frames| - 1], trig) && h <= AdvanceAll(b, frames, trig).position.y)
  }

  /** Height and vertical velocity: the part of a body's motion that gravity drives. */
  datatype Vertical = Vertical(y: real, vy: real)

  function VerticalOf(b: Body): Vertical {
    Vertical(b.position.y, b.velocity.y)
  }

  /** A reference definition of one frame of free fall in still air: the
      vertical velocity loses 9.8 delta, then the height moves by the new
      vertical velocity. */
  function FallStep(s: Vertical, delta: real): Vertical {
    var vy := s.vy - 9.8 * delta;
    Vertical(s.y + vy * delta, vy)
  }

  /** n frames of free fall, each of length delta. */
  function FallRepeat(s: Vertical, delta: real, n: nat): Vertical {
    if n == 0 then s else FallStep(FallRepeat(s, delta, n - 1), delta)
  }

  /** With no vertical wind, an awake frame moves a body vertically exactly as
      free fall does: flutter and the horizontal wind never touch the height. */
  lemma AdvanceIsFreeFall(b: Body, f: Frame, trig: Trig)
    requires f.spin.Valid() && b.wind.y == 0.0
    ensures VerticalOf(Advance(b, f, trig)) == FallStep(VerticalOf(b), f.delta)
    ensures Advance(b, f, trig).wind.y == 0.0
  {
    var r := Advance(b, f, trig);
    var s := FallStep(VerticalOf(b), f.delta);
    assert r.velocity.y == s.vy;
    assert r.position.y == s.y;
  }

  /** Awake frames of equal length d move a still-air body like d-steps of free fall. */
  lemma {:induction false} AdvanceAllIsFreeFall(b: Body, frames: seq<Frame>, trig: Trig, d: real)
    requires b.wind.y == 0.0
    requires forall i :: 0 <= i < |frames| ==> frames[i].spin.Valid() && frames[i].delta == d
    ensures VerticalOf(AdvanceAll(b, frames, trig)) == FallRepeat(VerticalOf(b), d, |frames|)
    ensures AdvanceAll(b, frames, trig).wind.y == 0.0
  {
    if |frames| > 0 {
      var prefix := frames[..|frames| - 1];
      AdvanceAllIsFreeFall(b, prefix, trig, d);
      AdvanceIsFreeFall(AdvanceAll(b, prefix, trig), frames[|frames| - 1], trig);
    }
  }

  /** The closed form of explicit-Euler free fall at a fixed step d: after n
      frames the vertical velocity has dropped by 9.8 d n and the height by
      n d v0 - 4.9 d^2 n (n + 1). */
  function FallClosedForm(s: Vertical, d: real, n: nat): Vertical {
    var k := n as real;
    Vertical(s.y + k * (d * s.vy) - 4.9 * (k * (k + 1.0)) * (d * d), s.vy - 9.8 * (k * d))
  }

  /** The closed form at k steps, advanced by one more step of length d, is
      the closed form at k + 1 steps: the polynomial identity behind
      ClosedFormStep, with every product split off by one distributive law. */
  lemma ClosedFormArith(y: real, vy: real, d: real, k: real)
    ensures vy - 9.8 * (k * d) - 9.8 * d == vy - 9.8 * ((k + 1.0) * d)
    ensures y + k * (d * vy) - 4.9 * (k * (k + 1.0)) * (d * d) + (vy - 9.8 * (k * d) - 9.8 * d) * d
            == y + (k + 1.0) * (d * vy) - 4.9 * ((k + 1.0) * (k + 2.0)) * (d * d)
  {
    var u, w, x := d * vy, d * d, k * (k + 1.0);
    Arith.AddMul(k, 1.0, d);
    Arith.AddMul(k, 1.0, u);
    assert (vy - 9.8 * (k * d) - 9.8 * d) * d == u - 9.8 * (k * w) - 9.8 * w by {
      Arith.AddMul(vy, -9.8 * (k * d) - 9.8 * d, d);
      Arith.AddMul(-9.8 * (k * d), -9.8 * d, d);
      assert (k * d) * d == k * w;
    }
    assert (k + 1.0) * (k + 2.0) == x + (2.0 * k + 2.0);
    Arith.AddMul(x, 2.0 * k + 2.0, w);
    Arith.AddMul(2.0 * k, 2.0, w);
  }

  lemma ClosedFormStep(s: Vertical, d: real, m: nat)
    ensures FallStep(FallClosedForm(s, d, m), d) == FallClosedForm(s, d, m + 1)
  {
    ClosedFormArith(s.y, s.vy, d, m as real);
    assert (m + 1) as real == m as real + 1.0;
  }

  /** Free fall repeated n times agrees with its closed form. */
  lemma {:induction false} FallRepeatClosedForm(s: Vertical, d: real, n: nat)
    ensures FallRepeat(s, d, n) == FallClosedForm(s, d, n)
  {
    if n > 0 {
      FallRepeatClosedForm(s, d, n - 1);
      ClosedFormStep(s, d, n - 1);
    }
  }

  /** Scenario: a bill in still air falling through frames of equal length d
      follows the closed form, whatever the clock and the spin draws. */
  lemma FreeFall(b: Body, frames: seq<Frame>, trig: Trig, d: real)
    requires b.wind.y == 0.0
    requires forall i :: 0 <= i < |frames| ==> frames[i].spin.Valid() && frames[i].delta == d
    ensures VerticalOf(AdvanceAll(b, frames, trig)) == FallClosedForm(VerticalOf(b), d, |frames|)
  {
    AdvanceAllIsFreeFall(b, frames, trig, d);
    FallRepeatClosedForm(VerticalOf(b), d, |frames|);
  }
}

=== FILE: intro.dfy ===
/** The intro scene (ThreeIntro in src/ThreeIntro/index.js): holding the
    pointer down sets `isAnimating`, which drives the camera and a progress
    bar whose width grows by 0.4 on every interval tick up to 100. The ten
    falling bills are mounted with `active` fixed to true, so they fall
    whether or not the pointer is held. */
module Intro {

  import opened Trig
  import opened Falling
  import DollarBill
  import Camera

  /** The scene mounts DollarBills with count 10. */
  const BillCount: nat := 10
  /** The bills' `active` prop. */
  const BillsActive: bool := true
  const WidthStep: real := 0.4
  const WidthLimit: real := 100.0

  /** One tick of the width interval: grow by 0.4 while below 100, else stay. */
  function RampStep(w: real): (r: real)
    ensures w <= r
    ensures w < WidthLimit ==> r == w + WidthStep
    ensures WidthLimit <= w ==> r == w
    ensures w < WidthLimit + WidthStep ==> r < WidthLimit + WidthStep
  {
    if w < WidthLimit then w + WidthStep else w
  }

  /** n interval ticks, the last applied last. */
  function Ramp(w: real, n: nat): real {
    if n == 0 then w else RampStep(Ramp(w, n - 1))
  }

  /** From width 0 the bar grows by exactly 0.4 per tick for 250 ticks, then
      stays at exactly 100. */
  lemma {:induction false} RampFromZero(n: nat)
    ensures Ramp(0.0, n) == 0.4 * (if n <= 250 then n else 250) as real
  {
    if n > 0 {
      RampFromZero(n - 1);
    }
  }

  /** Whatever the start, ticks never shrink the bar and never take it past
      100.4 if it started below that. */
  lemma {:induction false} RampIsCapped(w: real, n: nat)
    ensures w <= Ramp(w, n)
    ensures w < WidthLimit + WidthStep ==> Ramp(w, n) < WidthLimit + WidthStep
  {
    if n > 0 {
      RampIsCapped(w, n - 1);
    }
  }

  /** The random draws one bill makes in one frame. */
  datatype BillDraws = BillDraws(spin: SpinDraws, respawn: SpawnDraws)

  /** What reaches the scene: the three pointer handlers on the canvas, a tick
      of the width interval, and a rendered frame (delta, clock, and each
      bill's draws). */
  datatype Event =
    | PointerDown
    | PointerUp
    | PointerLeave
    | IntervalTick
    | Render(delta: real, clock: real, draws: seq<BillDraws>)

  datatype Scene = Scene(isAnimating: bool, width: real, camera: Camera.Controller, bills: seq<DollarBill.Bill>)

  /** The scene as mounted: not animating, width 0, the camera on its first
      waypoint, and each bill randomized once. */
  function Mount(spawns: seq<SpawnDraws>): (s: Scene)
    requires |spawns| == BillCount
    requires forall i :: 0 <= i < |spawns| ==> spawns[i].Valid()
    ensures !s.isAnimating && s.width == 0.0 && |s.bills| == BillCount
    ensures s.camera.cursor == Camera.Cursor(0.0, 0) && s.camera.position == Camera.Waypoints[0]
    ensures forall i :: 0 <= i < |s.bills| ==>
              SpawnRanges(s.bills[i].body, DollarBill.SpawnY) && s.bills[i].opacity == 0.0
  {
    Scene(false, 0.0, Camera.Mount(),
          seq(|spawns|, i requires 0 <= i < |spawns| => DollarBill.Mount(spawns[i])))
  }

  /** The frame bill i sees in a rendered frame. */
  function BillFrame(delta: real, clock: real, d: BillDraws): Frame {
    Frame(delta, clock, d.spin, d.respawn)
  }

  /** A rendered frame carries one valid set of draws per bill. */
  predicate WellFormed(e: Event, bills: nat) {
    e.Render? ==>
      && |e.draws| == bills
      && forall i :: 0 <= i < |e.draws| ==> BillFrame(e.delta, e.clock, e.draws[i]).Valid()
  }

  predicate Admissible(s: Scene, e: Event) {
    WellFormed(e, |s.bills|)
  }

  /** The scene's reaction to one event. Pointer events only set or clear
      isAnimating. The width interval runs only while animating. A rendered
      frame moves the camera if animating and every bill regardless. */
  function Handle(s: Scene, e: Event, trig: Trig): (r: Scene)
    requires s.camera.cursor.index < |Camera.Waypoints|
    requires Admissible(s, e)
    ensures r.camera.cursor.index < |Camera.Waypoints|
    ensures |r.bills| == |s.bills|
    ensures e.PointerDown? ==> r == s.(isAnimating := true)
    ensures e.PointerUp? || e.PointerLeave? ==> r == s.(isAnimating := false)
    ensures s.width <= r.width
    ensures r.width != s.width ==> e.IntervalTick? && s.isAnimating
    ensures !e.Render? ==> r.camera == s.camera && r.bills == s.bills
    ensures !s.isAnimating ==> r.camera == s.camera
    ensures e.Render? ==> r.camera == Camera.Frame(s.camera, s.isAnimating, e.delta, trig)
    ensures e.IntervalTick? && s.isAnimating ==> r.width == RampStep(s.width)
    ensures e.IntervalTick? ==> r.isAnimating == s.isAnimating && r.camera == s.camera && r.bills == s.bills
    ensures e.Render? ==> r.isAnimating == s.isAnimating && forall i :: 0 <= i < |s.bills| ==>
              r.bills[i] == DollarBill.Step(s.bills[i], true, BillFrame(e.delta, e.clock, e.draws[i]), trig)
  {
    match e
    case PointerDown => s.(isAnimating := true)
    case PointerUp => s.(isAnimating := false)
    case PointerLeave => s.(isAnimating := false)
    case IntervalTick => if s.isAnimating then s.(width := RampStep(s.width)) else s
    case Render(delta, clock, draws) =>
      s.(camera := Camera.Frame(s.camera, s.isAnimating, delta, trig),
         bills := seq(|s.bills|, i requires 0 <= i < |s.bills| =>
                        DollarBill.Step(s.bills[i], BillsActive, BillFrame(delta, clock, draws[i]), trig)))
  }

  /** The bills fall the same whether or not the pointer is held. */
  lemma BillsIgnorePointer(s: Scene, e: Event, trig: Trig, held: bool)
    requires s.camera.cursor.index < |Camera.Waypoints|
    requires Admissible(s, e) && e.Render?
    ensures Handle(s.(isAnimating := held), e, trig).bills == Handle(s, e, trig).bills
  {}

  /** What holds between events: the camera's index is in range, the bar
      is within [0, 100.4), there are ten bills and each keeps its own
      invariant. */
  ghost predicate Inv(s: Scene) {
    && s.camera.cursor.index < |Camera.Waypoints|
    && 0.0 <= s.width < WidthLimit + WidthStep
    && |s.bills| == BillCount
    && forall i :: 0 <= i < |s.bills| ==> DollarBill.Inv(s.bills[i])
  }

  lemma MountEstablishesInv(spawns: seq<SpawnDraws>)
    requires |spawns| == BillCount
    requires forall i :: 0 <= i < |spawns| ==> spawns[i].Valid()
    ensures Inv(Mount(spawns))
  {
    var s := Mount(spawns);
    forall i | 0 <= i < |s.bills| ensures DollarBill.Inv(s.bills[i]) {
      DollarBill.MountEstablishesInv(spawns[i]);
    }
  }

  /** Frames whose delta is never negative. */
  predicate Forward(e: Event) {
    e.Render? ==> 0.0 <= e.delta
  }

  lemma HandlePreservesInv(s: Scene, e: Event, trig: Trig)
    requires Inv(s) && Admissible(s, e) && Forward(e)
    ensures Inv(Handle(s, e, trig))
  {
    var r := Handle(s, e, trig);
    if e.Render? {
      forall i | 0 <= i < |r.bills| ensures DollarBill.Inv(r.bills[i]) {
        DollarBill.StepPreservesInv(s.bills[i], true, BillFrame(e.delta, e.clock, e.draws[i]), trig);
      }
    }
  }

  /** A sequence of events, the last one handled last. */
  function Replay(s: Scene, events: seq<Event>, trig: Trig): (r: Scene)
    requires s.camera.cursor.index < |Camera.Waypoints|
    requires forall k :: 0 <= k < |events| ==> WellFormed(events[k], |s.bills|)
    ensures r.camera.cursor.index < |Camera.Waypoints| && |r.bills| == |s.bills|
  {
    if |events| == 0 then s
    else Handle(Replay(s, events[..|events| - 1], trig), events[|events| - 1], trig)
  }

  lemma {:induction false} ReplayPreservesInv(s: Scene, events: seq<Event>, trig: Trig)
    requires Inv(s)
    requires forall k :: 0 <= k < |events| ==> WellFormed(events[k], |s.bills|) && Forward(events[k])
    ensures Inv(Replay(s, events, trig))
  {
    if |events| > 0 {
      var prefix := events[..|events| - 1];
      ReplayPreservesInv(s, prefix, trig);
      HandlePreservesInv(Replay(s, prefix, trig), events[|events| - 1], trig);
    }
  }

  /** Until the pointer goes down, the camera stays frozen and the bar does
      not grow, however many frames and interval ticks arrive. */
  lemma {:induction false} NoPressNoProgress(s: Scene, events: seq<Event>, trig: Trig)
    requires s.camera.cursor.index < |Camera.Waypoints| && !s.isAnimating
    requires forall k :: 0 <= k < |events| ==> WellFormed(events[k], |s.bills|) && !events[k].PointerDown?
    ensures var r := Replay(s, events, trig);
            !r.isAnimating && r.camera == s.camera && r.width == s.width
  {
    if |events| > 0 {
      NoPressNoProgress(s, events[..|events| - 1], trig);
    }
  }
}

=== FILE: legacy_bill.dfy ===
/** The older dollar bill (src/Models/DollarBill): the same motion as the
    intro bill, but spawning at height 8, re-spawning below -8, and with no
    fading. The file is not imported anywhere in the application. */
module LegacyBill {

  import opened Vectors
  import opened Trig
  import opened Falling

  const SpawnY: real := 8.0
  const DespawnY: real := -8.0

  /** The bill as first mounted: the refs' initial values overwritten by one
      call of randomizeState. */
  function Mount(d: SpawnDraws): (r: Body)
    requires d.Valid()
    ensures SpawnRanges(r, SpawnY) && r.uTime == 0.0
  {
    var zero := Vec3(0.0, 0.0, 0.0);
    Randomize(Body(zero, zero, zero, zero, 0.0, 0.0, 0.0), SpawnY, d)
  }

  /** One useFrame call: nothing while inactive; only the timer while the
      spawn delay runs; otherwise motion, the uTime write, and an immediate
      re-spawn below the despawn line. */
  function Step(b: Body, active: bool, f: Frame, trig: Trig): (r: Body)
    requires f.Valid()
    ensures !active ==> r == b
    ensures active && b.timer + f.delta < b.spawnDelay ==> r == b.(timer := b.timer + f.delta)
    ensures active && b.spawnDelay <= b.timer + f.delta ==> DespawnY <= r.position.y && r.uTime == f.clock
    ensures active && b.spawnDelay <= b.timer + f.delta && Advance(b.(timer := b.timer + f.delta), f, trig).position.y < DespawnY ==>
              SpawnRanges(r, SpawnY)
    ensures active && b.spawnDelay <= b.timer + f.delta && DespawnY <= Advance(b.(timer := b.timer + f.delta), f, trig).position.y ==>
              r == Advance(b.(timer := b.timer + f.delta), f, trig)
    ensures r.uTime != b.uTime ==> active && b.spawnDelay <= b.timer + f.delta
  {
    if !active then b
    else
      var timer := b.timer + f.delta;
      if timer < b.spawnDelay then b.(timer := timer)
      else
        var moved := Advance(b.(timer := timer), f, trig);
        if moved.position.y < DespawnY then Randomize(moved, SpawnY, f.respawn) else moved
  }

  /** Between frames: spawn delay in [0, 3), timer non-negative, no vertical
      wind, a dormant bill waits at the spawn height, and the bill is never
      below the despawn line. */
  ghost predicate Inv(b: Body) {
    && 0.0 <= b.spawnDelay < MaxSpawnDelay
    && 0.0 <= b.timer
    && b.wind.y == 0.0
    && (b.timer < b.spawnDelay ==> b.position.y == SpawnY)
    && DespawnY <= b.position.y
  }

  function Run(b: Body, active: bool, frames: seq<Frame>, trig: Trig): Body
    requires forall i :: 0 <= i < |frames| ==> frames[i].Valid()
  {
    if |frames| == 0 then b
    else Step(Run(b, active, frames[..|frames| - 1], trig), active, frames[|frames| - 1], trig)
  }

  lemma {:induction false} RunPreservesInv(b: Body, active: bool, frames: seq<Frame>, trig: Trig)
    requires Inv(b)
    requires forall i :: 0 <= i < |frames| ==> frames[i].Valid() && 0.0 <= frames[i].delta
    ensures Inv(Run(b, active, frames, trig))
  {
    if |frames| > 0 {
      RunPreservesInv(b, active, frames[..|frames| - 1], trig);
    }
  }
}

=== FILE: random.dfy ===
/** The random draws of the animation, made explicit. Every call of
    Math.random() becomes a real `u` in [0, 1), and the THREE.MathUtils helpers
    built on it are computed from that draw exactly as three.js does. */
module Random {

  import Arith

  /** The value of the JavaScript double Math.PI. */
  const Pi: real := 3.141592653589793

  /** A possible result of Math.random(). */
  predicate IsUnit(u: real) {
    0.0 <= u < 1.0
  }

  /** MathUtils.randFloat(low, high) = low + u * (high - low), uniform in [low, high). */
  function RandFloat(low: real, high: real, u: real): (r: real)
    requires IsUnit(u)
    ensures low < high ==> low <= r < high
    ensures u == 0.0 ==> r == low
  {
    ScaledDrawBounds(low, high, u);
    low + u * (high - low)
  }

  lemma ScaledDrawBounds(low: real, high: real, u: real)
    requires IsUnit(u)
    ensures low < high ==> low <= low + u * (high - low) < high
  {
    if low < high {
      var p := Arith.Fraction(u, high - low);
    }
  }

  /** MathUtils.randFloatSpread(range) = range * (0.5 - u), uniform in (-range/2, range/2]. */
  function RandFloatSpread(range: real, u: real): (r: real)
    requires IsUnit(u)
    ensures range > 0.0 ==> -range / 2.0 < r <= range / 2.0
  {
    SpreadDrawBounds(range, u);
    range * (0.5 - u)
  }

  lemma SpreadDrawBounds(range: real, u: real)
    requires IsUnit(u)
    ensures range > 0.0 ==> -range / 2.0 < range * (0.5 - u) <= range / 2.0
  {
    if range > 0.0 {
      var p := Arith.Fraction(u, range);
      assert range * (0.5 - u) == range / 2.0 - p;
    }
  }

  /** MathUtils.degToRad: degrees times Math.PI / 180. A full turn is 2 * Pi. */
  function DegToRad(degrees: real): (r: real)
    ensures 0.0 <= degrees < 360.0 ==> 0.0 <= r < 2.0 * Pi
    ensures degrees == 180.0 ==> r == Pi
  {
    degrees * (Pi / 180.0)
  }
}

=== FILE: trig.dfy ===
/** Sine and cosine are not computed by the model: a `Trig` value supplies
    them, and `Valid` states the only facts about them the proofs rely on. */
module Trig {

  import Random

  datatype Trig = Trig(sin: real -> real, cos: real -> real)

  /** Both functions map into [-1, 1], agree with sin 0 = 0, cos 0 = 1 and
      cos(Math.PI) = -1 (which holds of the JavaScript doubles), and satisfy
      the Pythagorean identity at every angle. */
  ghost predicate Valid(t: Trig) {
    && t.sin(0.0) == 0.0
    && t.cos(0.0) == 1.0
    && t.cos(Random.Pi) == -1.0
    && (forall a: real :: -1.0 <= t.sin(a) <= 1.0)
    && (forall a: real :: -1.0 <= t.cos(a) <= 1.0)
    && (forall a: real :: t.sin(a) * t.sin(a) + t.cos(a) * t.cos(a) == 1.0)
  }
}

=== FILE: vectors.dfy ===
/** Three-component real vectors: the parts of THREE.Vector3 the intro scene uses. */
module Vectors {

  import Arith

  datatype Vec3 = Vec3(x: real, y: real, z: real)

  /** Vector3.add: componentwise sum. */
  function Add(a: Vec3, b: Vec3): Vec3 {
    Vec3(a.x + b.x, a.y + b.y, a.z + b.z)
  }

  /** Vector3.multiplyScalar. */
  function Scale(a: Vec3, k: real): Vec3 {
    Vec3(a.x * k, a.y * k, a.z * k)
  }

  /** True when v lies between a and b on one axis. */
  predicate Between(v: real, a: real, b: real) {
    (a <= v <= b) || (b <= v <= a)
  }

  /** Vector3.lerpVectors(a, b, alpha): each component is a + (b - a) * alpha.
      Every component is the weighted mean of the endpoints' components with
      weights 1 - alpha and alpha, so it starts at a, ends at b, and for alpha
      in [0, 1] stays in the box the two endpoints span. */
  function Lerp(a: Vec3, b: Vec3, alpha: real): (r: Vec3)
    ensures r.x == a.x * (1.0 - alpha) + b.x * alpha
    ensures r.y == a.y * (1.0 - alpha) + b.y * alpha
    ensures r.z == a.z * (1.0 - alpha) + b.z * alpha
    ensures alpha == 0.0 ==> r == a
    ensures alpha == 1.0 ==> r == b
    ensures 0.0 <= alpha <= 1.0 ==>
              Between(r.x, a.x, b.x) && Between(r.y, a.y, b.y) && Between(r.z, a.z, b.z)
  {
    var r := Vec3(a.x + (b.x - a.x) * alpha, a.y + (b.y - a.y) * alpha, a.z + (b.z - a.z) * alpha);
    LerpAxisBetween(a.x, b.x, alpha);
    LerpAxisBetween(a.y, b.y, alpha);
    LerpAxisBetween(a.z, b.z, alpha);
    LerpAxisConvex(a.x, b.x, alpha);
    LerpAxisConvex(a.y, b.y, alpha);
    LerpAxisConvex(a.z, b.z, alpha);
    r
  }

  /** The lerp formula as a weighted mean of its endpoints. */
  lemma LerpAxisConvex(a: real, b: real, alpha: real)
    ensures a + (b - a) * alpha == a * (1.0 - alpha) + b * alpha
  {
    Arith.AddMul(b, -a, alpha);
  }

  lemma LerpAxisBetween(a: real, b: real, alpha: real)
    ensures 0.0 <= alpha <= 1.0 ==> Between(a + (b - a) * alpha, a, b)
  {
    if alpha < 0.0 || 1.0 < alpha {
    } else if a <= b {
      Arith.MulNonneg(b - a, alpha);
      Arith.MulNonneg(b - a, 1.0 - alpha);
    } else {
      Arith.MulNonneg(a - b, alpha);
      Arith.MulNonneg(a - b, 1.0 - alpha);
    }
  }
}

=== FILE: wind_bend.dfy ===
/** The vertex deformation both bill components inject into their material's
    vertex shader: a wind sway that shifts each vertex sideways along a
    sinusoid of its height and of time, then a twist about the vertical axis
    whose angle grows with the vertex's height. Trigonometry comes from a
    `Trig` value. */
module WindBend {

  import opened Vectors
  import opened Trig

  /** Default values of the windStrength and twistFactor uniforms. */
  const WindStrength: real := 2.5
  const TwistFactor: real := 0.5

  /** The wind displacement: x gains sin, z gains cos, of (0.1 y + 0.8 t),
      both times the wind strength. */
  function Sway(p: Vec3, uTime: real, trig: Trig, windStrength: real): Vec3 {
    var phase := p.y * 0.1 + uTime * 0.8;
    Vec3(p.x + trig.sin(phase) * windStrength, p.y, p.z + trig.cos(phase) * windStrength)
  }

  /** The twist angle of a vertex at height y: twistFactor * y * sin(1.5 t). */
  function TwistAngle(y: real, uTime: real, trig: Trig, twistFactor: real): real {
    twistFactor * y * trig.sin(uTime * 1.5)
  }

  /** A rotation of (x, z) by the angle whose sine and cosine are s and c:
      the dot product of the old and new (x, z) is c times the squared
      radius, their cross product s times it. */
  function Rotate(q: Vec3, s: real, c: real): (r: Vec3)
    ensures r.y == q.y
    ensures q.x * r.x + q.z * r.z == c * (q.x * q.x + q.z * q.z)
    ensures q.x * r.z - q.z * r.x == s * (q.x * q.x + q.z * q.z)
    ensures s * s + c * c == 1.0 ==> r.x * r.x + r.z * r.z == q.x * q.x + q.z * q.z
    ensures s == 0.0 && c == 1.0 ==> r == q
  {
    RotationKeepsRadius(q.x, q.z, s, c);
    Vec3(q.x * c - q.z * s, q.y, q.x * s + q.z * c)
  }

  lemma RotationKeepsRadius(a: real, b: real, s: real, c: real)
    ensures s * s + c * c == 1.0 ==>
              (a * c - b * s) * (a * c - b * s) + (a * s + b * c) * (a * s + b * c) == a * a + b * b
  {
    var lhs := (a * c - b * s) * (a * c - b * s) + (a * s + b * c) * (a * s + b * c);
    assert lhs == (a * a + b * b) * (s * s + c * c);
  }

  /** The deformed position of a vertex `p` of the bill mesh at shader time uTime. */
  function Deform(p: Vec3, uTime: real, trig: Trig, windStrength: real, twistFactor: real): (r: Vec3)
    ensures r.y == p.y
    ensures var q := Sway(p, uTime, trig, windStrength);
            var angle := TwistAngle(p.y, uTime, trig, twistFactor);
            && q.x * r.x + q.z * r.z == trig.cos(angle) * (q.x * q.x + q.z * q.z)
            && q.x * r.z - q.z * r.x == trig.sin(angle) * (q.x * q.x + q.z * q.z)
    ensures Valid(trig) ==>
              var q := Sway(p, uTime, trig, windStrength);
              r.x * r.x + r.z * r.z == q.x * q.x + q.z * q.z
  {
    var angle := TwistAngle(p.y, uTime, trig, twistFactor);
    Rotate(Sway(p, uTime, trig, windStrength), trig.sin(angle), trig.cos(angle))
  }

  /** The sway moves every vertex by exactly the wind strength in the xz plane. */
  lemma SwayDistance(p: Vec3, uTime: real, trig: Trig, windStrength: real)
    requires Valid(trig)
    ensures var q := Sway(p, uTime, trig, windStrength);
            (q.x - p.x) * (q.x - p.x) + (q.z - p.z) * (q.z - p.z) == windStrength * windStrength
  {
    var phase := p.y * 0.1 + uTime * 0.8;
    var s, c := trig.sin(phase), trig.cos(phase);
    assert s * s + c * c == 1.0;
    assert (s * windStrength) * (s * windStrength) + (c * windStrength) * (c * windStrength)
        == (s * s + c * c) * (windStrength * windStrength);
  }

  /** Where the twist angle is zero (at shader time 0, or at height 0) the
      deformation is the sway alone. */
  lemma NoTwistAtZeroAngle(p: Vec3, uTime: real, trig: Trig, windStrength: real, twistFactor: real)
    requires Valid(trig)
    requires uTime == 0.0 || p.y == 0.0
    ensures Deform(p, uTime, trig, windStrength, twistFactor) == Sway(p, uTime, trig, windStrength)
  {
    assert TwistAngle(p.y, uTime, trig, twistFactor) == 0.0;
  }

  /** At the uniforms' default values: the sway moves every vertex by 2.5
      in the xz plane, and on the first frame (uTime 0) a vertex at height 0
      is pushed 2.5 along z and nowhere else. */
  lemma AtDefaultUniforms(p: Vec3, uTime: real, trig: Trig)
    requires Valid(trig)
    ensures var q := Sway(p, uTime, trig, WindStrength);
            (q.x - p.x) * (q.x - p.x) + (q.z - p.z) * (q.z - p.z) == 6.25
    ensures p.y == 0.0 && uTime == 0.0 ==>
              Deform(p, uTime, trig, WindStrength, TwistFactor) == Vec3(p.x, p.y, p.z + 2.5)
  {
    SwayDistance(p, uTime, trig, WindStrength);
    if p.y == 0.0 && uTime == 0.0 {
      NoTwistAtZeroAngle(p, uTime, trig, WindStrength, TwistFactor);
    }
  }
}
